=== FILE: README.md ===
# Pokédex core in Dafny

This project models the logic inside a small React Native "Pokédex" app. It
covers four pieces, each as pure functions over immutable datatypes:

- the search screen (`app/index.tsx`):
  - the blank-query guard;
  - the lookup key and request URL;
  - the conversion of a fetched record into the card's `Pokemon` (zero-padded
    id, height and weight in tenths, translated stat labels);
  - the "MissingNo." glitch placeholder shown when a search fails.
- the starter catalog (`components/StartedCatalog.tsx`):
  - the twelve-row starter table;
  - the all-or-nothing `Promise.all` load;
  - the grouping of the loaded starters into region sections;
  - the type colour table.
- the type colour table of the creature card (`components/PokemonCard.tsx`),
  which adds a colour for the placeholder's `glitch` type.
- the AI question panel (`components/PokemonIA.tsx`):
  - the blank-question guard;
  - the empty-text fallback;
  - the prioritised classification of an error message into one of four hints;
  - the label shown above the response.

Network calls are replaced by their outcomes, which are parameters:
`Formatter.FetchOutcome`, `Assistant.ServiceOutcome`, and one outcome per starter
request in the catalog. `Math.random` is replaced by a sequence of 27 draws in
`[0, 9)`, consumed in the order JavaScript evaluates them.

Modules:

- `Wrappers`: `Option`.
- `Text`:
  - JavaScript `trim` white space, and `padStart`;
  - decimal printing and reading;
  - ASCII lower-casing;
  - substring search.
- `Formatter`: `translateStatName` and the record → `Pokemon` mapping.
- `MissingNo`: `createMissingNo`.
- `Search`: `searchPokemon` as state transitions.
- `Catalog`: the starter catalog.
- `Card`: the card's colour table.
- `Assistant`: the AI panel.

Some behaviours of the code worth knowing, each with the member that states it:

- The card number is the decimal id left-padded with zeros to at least three
  characters, so its length is `max(3, digits)`: id 1025 gives "1025"
  (`Formatter.FormatId`).
- The request path is lower-cased but not trimmed, so `" Pikachu"` asks for
  `" pikachu"` (`Search.KeyIsNotTrimmed`).
- The screen's slots are not mutually exclusive. A blank search after a
  successful one shows the prompt banner next to the previous card
  (`Search.BlankSearchKeepsPreviousCard`).
- A failed catalog load leaves `starters` as it was. From the initial state
  that is the empty list (`Catalog.LoadStarters`).

## Model

| member | source | states |
|---|---|---|
| Text.TrimEmptyIffBlank | app/index.tsx:62 | `trim()` yields the empty string exactly when every character is JavaScript white space, so the guard rejects exactly the blank terms |
| Text.NatToStringRoundTrip | app/index.tsx:87 | the decimal text of a non-negative integer reads back as that integer |
| Text.ContainsIffOccurs | components/PokemonIA.tsx:36-44 | `includes` holds exactly when the pattern occurs at some position of the message |
| Formatter.TranslateStatName | app/index.tsx:49-59 | the six API stat keys map to their Spanish labels, and every other key comes back unchanged (and only those six change) |
| Formatter.FormatId | app/index.tsx:79 | the padded id has length max(3, digit count), holds only digits and reads back as the record's id |
| Formatter.FormatTenths | app/index.tsx:83-84 | the text ends with the unit; before it come a point and one digit holding the tenths remainder, and everything before the point is the whole part in decimal with no leading zero (as many digits as the whole part has, reading back as it) |
| Formatter.FormatTenthsRoundTrip | app/index.tsx:83-84 | a height or weight in tenths renders as `<digits>.<digit><unit>` and reads back as the same tenths |
| Formatter.FormatTenthsInjective | app/index.tsx:83-84 | different measurements never render as the same text |
| Formatter.FormatStat | app/index.tsx:85-88 | a stat's label is the translated key and its value is the base stat in decimal with no leading zero (as many digits as the number has, reading back as it) |
| Formatter.FormatStats | app/index.tsx:85-88 | the stat list keeps the input's length and order, one formatted stat per input stat |
| Formatter.FormatRecord | app/index.tsx:78-89 | the id is the padded id, name and types pass through, the image is the sprite URL, height and weight are the tenths texts in metres and kilograms, and stat i is the formatted record stat i, one per record stat |
| Formatter.FormatRecordMeasures | app/index.tsx:83-84 | the card's height and weight read back as the record's tenths of a metre and of a kilogram |
| Formatter.PikachuExample | app/index.tsx:79-84 | id 25, height 4 and weight 60 render as "025", "0.4 m" and "6.0 kg" |
| MissingNo.GlyphsDistinct | app/index.tsx:27 | the nine glitch glyphs are pairwise distinct |
| MissingNo.GlitchLabelsAreTranslations | app/index.tsx:38-45 | the placeholder's six stat labels are exactly `translateStatName` of the six API keys, in order |
| MissingNo.CreateMissingNo | app/index.tsx:26-47 | the placeholder is named "MissingNo.", has types ["glitch"] and the placeholder art; its id and six stat values are three glyphs each, and its height and weight are glyph, glyph, ".", glyph, unit |
| MissingNo.RollsOfCreate | app/index.tsx:26-47 | the draws can be read back from the placeholder, so different draws give different placeholders |
| MissingNo.CreateRollsOf | app/index.tsx:26-47 | every value meeting the placeholder's shape is produced by some draws, so the shape is exactly what the generator can produce |
| MissingNo.MissingNoIsNoRecord | app/index.tsx:29-32 | a placeholder never equals a formatted record, because its id starts with a glyph rather than a digit |
| Search.LookupKey | app/index.tsx:73 | the request key has the term's length and keeps every white-space character in place: lower-casing does not trim |
| Search.KeyIsNotTrimmed | app/index.tsx:73 | the term " Pikachu" is requested as " pikachu" |
| Search.RequestUrl | app/index.tsx:72-74 | the request address is the API base followed by the term with every ASCII letter lower-cased and no character added or removed |
| Search.Submit | app/index.tsx:61-74 | a search is rejected exactly when the term is blank; a rejection only sets the prompt banner; otherwise the screen shows the spinner alone and the request goes to the API base plus the key |
| Search.Complete | app/index.tsx:91-97 | when the request settles the spinner stops and the term and banner are left as they were; a record becomes the formatted card and a failure becomes a MissingNo placeholder |
| Search.SearchPokemon | app/index.tsx:61-98 | a whole search: a blank term issues no request and changes only the banner; any other term issues one request and ends with a card, no banner and no spinner |
| Search.SearchKeepsCoherence | app/index.tsx:67-97 | while a request is out the screen shows neither card nor banner, and every settled search ends with the spinner off |
| Search.BlankSearchKeepsPreviousCard | app/index.tsx:62-65 | a blank search after a result keeps the previous card on screen next to the prompt banner |
| Catalog.StarterIdsDistinct | components/StartedCatalog.tsx:16-29 | the starter table has twelve rows whose ids strictly increase |
| Catalog.StarterNamesDistinct | components/StartedCatalog.tsx:16-29 | no name appears twice in the starter table |
| Catalog.StarterRegionsCounted | components/StartedCatalog.tsx:16-29 | each of Kanto, Johto, Hoenn and Sinnoh has exactly three rows |
| Catalog.StarterRegionsKnown | components/StartedCatalog.tsx:16-29 | no row names a region outside those four |
| Catalog.ToStarter | components/StartedCatalog.tsx:56-62 | a loaded entry takes its region from the table row and its name, image and types from the record; its id is the padded decimal of the record's id |
| Catalog.Collect | components/StartedCatalog.tsx:65 | `Promise.all` yields a value exactly when every request succeeded, and that value holds every record in request order, whatever order the requests completed in |
| Catalog.LoadAll | components/StartedCatalog.tsx:53-65 | the batch of per-row requests yields a value exactly when every request succeeded, and then it is the reference list of entries: entry i built from row i and its own record |
| Catalog.LoadStarters | components/StartedCatalog.tsx:51-72 | the spinner stops either way; after a full success the list holds the twelve entries in table order; after any failure the list is unchanged |
| Catalog.AddToGroups | components/StartedCatalog.tsx:75-80 | handling one more entry adds exactly one member to the grouping |
| Catalog.AddToGroupsStep | components/StartedCatalog.tsx:75-80 | adding the next entry to the grouping of a prefix gives the grouping of the prefix one longer |
| Catalog.GroupByRegion | components/StartedCatalog.tsx:74-80 | the groups come in order of each region's first appearance; each holds that region's entries in their original order and none is empty; the group sizes add up to the number of entries |
| Catalog.GroupedPlacesEachEntryOnce | components/StartedCatalog.tsx:74-80 | group keys are distinct, every entry's region is a key, and a group holds only entries of its own region |
| Catalog.LoadedSections | components/StartedCatalog.tsx:74-99 | after a successful load the sections are Kanto, Johto, Hoenn and Sinnoh, in that order, with three entries each |
| Catalog.CatalogTypeColor | components/StartedCatalog.tsx:31-41 | the six listed types get their colours, and the default colour is returned exactly for the other types, "glitch" included |
| Card.CardTypeColor | components/PokemonCard.tsx:17-28 | the six listed types and "glitch" get their colours, and the default colour is returned exactly for the types not listed |
| Card.GlitchColorIsUnique | components/PokemonCard.tsx:25 | no other type, listed or not, gets the glitch colour |
| Card.CardAgreesWithCatalog | components/PokemonCard.tsx:17-28 | for every type other than "glitch" the card and the catalog pick the same colour |
| Assistant.Ask | components/PokemonIA.tsx:12-24 | a question is ignored exactly when it is blank; otherwise the panel clears the response, starts loading and sends the preamble plus the question to gemini-2.0-flash |
| Assistant.ResponseFor | components/PokemonIA.tsx:26-44 | non-empty text is shown verbatim; missing or empty text gives the fixed fallback sentence; a thrown error gives the hint for its message; the response is never empty (for errors whose message is a string or absent) |
| Assistant.Settle | components/PokemonIA.tsx:26-47 | after the call settles, loading is off and a non-empty response is set, on success and on failure |
| Assistant.Consult | components/PokemonIA.tsx:12-48 | a blank question changes nothing and makes no call; any other question makes exactly one call and ends with loading off and the outcome's response |
| Assistant.GenericHint | components/PokemonIA.tsx:43 | the generic hint is the error prefix followed by the first min(200, length) characters of the message |
| Assistant.ErrorText | components/PokemonIA.tsx:34 | the text classified is the error's message whenever that is non-empty, otherwise its serialization, and is empty only when both are |
| Assistant.HintsDistinct | components/PokemonIA.tsx:37-43 | the four hints differ from one another for every message |
| Assistant.ErrorResponse | components/PokemonIA.tsx:34-44 | each hint is chosen exactly when its bucket is the first to match, in the order rate limit, model, key, generic; the buckets are exhaustive and exclusive |
| Assistant.RateLimitWins | components/PokemonIA.tsx:36-38 | a message with both "429" and "404" gets the rate-limit hint |
| Assistant.LabelAsWritten | components/PokemonIA.tsx:86 | the label is one of the two labels, and it is the warning label exactly when the response contains "Error", the hourglass or the warning sign |
| Assistant.ErrorLabelsAsWritten | components/PokemonIA.tsx:86 | with the label test as written, an error hint is labelled an answer exactly when it is the invalid-key hint |
| Assistant.InvalidKeyShownAsAnswer | components/PokemonIA.tsx:86 | the message "API_KEY_INVALID" produces the invalid-key hint, which the label test as written marks "💬 Respuesta:" |
| Assistant.ErrorLabelsCorrected | components/PokemonIA.tsx:86 | once the test also looks for the key symbol, every error hint is labelled "⚠️ Aviso:" |
| Assistant.Panel | components/PokemonIA.tsx:83-90 | the panel appears exactly when there is a response and no request is out, showing the response under the label test as written |
| Assistant.ConsultShowsPanel | components/PokemonIA.tsx:83-90 | every question that passes the guard ends with the panel shown; a failed call is shown under the warning label exactly when its hint is not the invalid-key hint |
| Assistant.ConsultShowsPanelCorrected | components/PokemonIA.tsx:86 | with the corrected label test, every question that passes the guard ends with the panel shown and every failed call is shown under the warning label |

## Left out

- JSX rendering, layout and React hooks/effects are not modelled. This covers `components/SearchBar.tsx` and `components/ErrorMessage.tsx`, which are presentational.
- `axios.get`, `fetch`, `response.json()` and the GoogleGenAI client are not modelled; their outcomes are parameters. The API key comes from the environment and is not modelled.
- `console` logging is left out because it is output only.
- `Math.random` is replaced by an explicit draw sequence. Its distribution is not modelled.
- The `setTimeout(() => searchPokemon(), 100)` re-trigger in `app/index.tsx` is left out. It depends on timing and on which `searchTerm` the closure reads.
- Overlapping searches or questions are not modelled; each run is sequential. A second press while a request is out is not modelled.
- The placeholder image from `require(...)` and the sprite URLs are opaque values.
- The glyphs: `app/index.tsx` spells each of the nine as three characters, U+0442 U+0426 followed by one of U+0418, U+0423, U+0422, U+0421, U+0410, U+0414, U+041C, U+0420, U+0430 (the UTF-8 bytes of a block element read in code page 866). The model replaces each three-character sequence by the one block element it mis-encodes (U+2588, U+2593, U+2592, U+2591, U+2580, U+2584, U+258C, U+2590, U+25A0), so in the model the placeholder's id is three characters and a measurement six, where the program's are nine and twelve. Only the glyphs' distinctness is used.
- Lookups in `translations[name] || name` and `colors[type] || …` are finite maps. Keys inherited from `Object.prototype` (such as "constructor") are not modelled.
- `Object.entries` lists integer-like keys first. Region names are never integer-like, so insertion order is modelled.
- A record is taken well formed: every field present, `id`, `height`, `weight` and `base_stat` non-negative integers, and the sprite a string. A missing `id`, `sprites`, `types`, `stats` or stat `base_stat` makes the mapping throw, and that is the failure outcome. Records that the code renders with undefined, NaN or null fields are not modelled: a missing `name` shows `undefined`, a missing `height` or `weight` shows "NaN m" or "NaN kg", a null sprite gives a null image, and a fractional `id` such as 1.5 shows "1.5".
- Formatter.FormatTenths: heights and weights are non-negative integers of tenths, printed with div/mod. The floating-point division and `toFixed(1)` are not modelled. They agree with this for the sizes records have, and print in exponential notation from 10^21 on.
- Formatter.FormatId: for ids of 10^21 or more, JavaScript's `toString` uses exponential notation. This is not modelled.
- Text.ToLower: only ASCII A–Z are lower-cased. `toLowerCase` also maps non-ASCII capitals, and can make the string longer ('İ' becomes "i̇", two code units), so `Search.LookupKey`'s equal-length promise holds for this ASCII-only lowering only.
- Search.LookupKey: lower-cases ASCII A–Z only and so keeps the term's length; see Text.ToLower for what `toLowerCase` does beyond that.
- Search.RequestUrl: lowers ASCII A–Z only, for the reason given under Text.ToLower.
- Assistant.GenericHint: counts characters (code points), while `substring(0, 200)` counts UTF-16 code units. The two differ only for messages with characters outside the Basic Multilingual Plane.
- Assistant.ErrorText: `err.message || JSON.stringify(err)` takes both texts as inputs; `JSON.stringify` itself is not modelled. A thrown error is taken to be an object whose `message` is a string or absent. If the thrown value is `null` or `undefined`, reading `err.message` throws inside the `catch`; if `message` is a truthy non-string, `errorMsg.includes` is not a function. In either case the `finally` clears the loading flag, the response stays the empty string it was cleared to, and no panel is shown. `Assistant.ResponseFor`'s non-empty response and `Assistant.ConsultShowsPanel`'s shown panel are promised only for the modelled errors.
- Assistant.ResponseFor: the response is never empty only for thrown errors of the modelled shape; a thrown `null`, `undefined` or non-string `message` leaves it empty (see Assistant.ErrorText).
- Assistant.ConsultShowsPanel: the panel is shown only for thrown errors of the modelled shape; after the other throws described under Assistant.ErrorText no panel appears.
- Assistant.Settle: the non-empty response is promised only for thrown errors of the modelled shape; see Assistant.ErrorText.

## Findings

| source | as written | input that shows it | evidently intended | confidence | as-written member | corrected member |
|---|---|---|---|---|---|---|
| components/PokemonIA.tsx:86 | the warning label is chosen only when the response contains "Error", "⏳" or "⚠️"; the invalid-key hint starts with "🔑" and contains none of them | an error whose message is "API_KEY_INVALID" gives the invalid-key hint, labelled "💬 Respuesta:" | every error hint is labelled "⚠️ Aviso:", like the other three | medium; not executed | Assistant.InvalidKeyShownAsAnswer | Assistant.ConsultShowsPanelCorrected |

=== FILE: assistant.dfy ===
/**
 * The AI question panel (components/PokemonIA.tsx): a guarded single request
 * to a text-generation service, the text shown on success, and a hint chosen
 * from the error message on failure. The service call is replaced by its
 * outcome.
 */
module Assistant {
  import opened Wrappers
  import opened Text

  /** The panel's three `useState` slots. */
  datatype AiState = AiState(question: string, response: string, isLoading: bool)

  /** What `generateContent` is asked for. */
  datatype Request = Request(model: string, contents: string)

  /** A rejected call: the error's `message` (empty when absent) and its
      `JSON.stringify` text. */
  datatype ServiceError = ServiceError(message: string, serialized: string)

  /** How the awaited call settled: a result whose `text` may be missing, or
      a thrown error. */
  datatype ServiceOutcome = Answered(text: Option<string>) | Raised(error: ServiceError)

  const ModelId := "gemini-2.0-flash"
  const PromptPreamble := "Eres un experto en Pok\U{00E9}mon. Responde de forma breve y clara: "
  const NoAnswer := "No se pudo obtener la respuesta"

  /** The symbols the hints and labels start with. */
  const Hourglass := "\U{23F3}"
  const WarningSign := "\U{26A0}\U{FE0F}"
  const KeySymbol := "\U{1F511}"
  const CrossMark := "\U{274C}"

  const RateLimitHint := Hourglass + " L\U{00ED}mite de consultas alcanzado.\n\n\U{1F4A1} Soluciones:\n1. Espera 1-2 minutos entre consultas\n2. Usa gemini-1.5-flash si persiste\n3. Genera nueva API key en:\nhttps://aistudio.google.com/app/apikey"
  const ModelUnavailableHint := WarningSign + " Tu cuenta no tiene acceso a Gemini 2.0 a\U{00FA}n.\n\nPrueba con: gemini-1.5-flash o gemini-1.5-pro"
  const InvalidKeyHint := KeySymbol + InvalidKeyText
  const GenericPrefix := CrossMark + " Error: "
  const MaxQuoted := 200

  const WarningLabel := WarningSign + " Aviso:"
  const AnswerLabel := "\U{1F4AC} Respuesta:"

  // ---------------------------------------------------------------------
  // Error classification
  // ---------------------------------------------------------------------

  predicate HasRateLimitMarker(msg: string) {
    Contains(msg, "429") || Contains(msg, "quota") || Contains(msg, "RESOURCE_EXHAUSTED")
  }

  predicate HasModelMarker(msg: string) {
    Contains(msg, "not found") || Contains(msg, "404")
  }

  predicate HasKeyMarker(msg: string) {
    Contains(msg, "API_KEY") || Contains(msg, "invalid")
  }

  /** `err.message || JSON.stringify(err)`: the message whenever it is
      present, the serialized error only as a fallback, and empty only when
      both are. */
  function ErrorText(e: ServiceError): (r: string)
    ensures r == e.message || r == e.serialized
    ensures e.message != "" ==> r == e.message
    ensures r == "" <==> e.message == "" && e.serialized == ""
  {
    if e.message != "" then e.message else e.serialized
  }

  function Min(a: int, b: int): int {
    if a <= b then a else b
  }

  /** The generic hint: the message quoted up to its first 200 characters. */
  function GenericHint(msg: string): (r: string)
    ensures |r| == |GenericPrefix| + Min(MaxQuoted, |msg|)
    ensures StartsWith(r, GenericPrefix)
    ensures StartsWith(msg, r[|GenericPrefix|..])
  {
    GenericPrefix + msg[..Min(MaxQuoted, |msg|)]
  }

  /** The four hints are pairwise different, and no generic hint equals any
      of the other three. */
  lemma HintsDistinct(msg: string)
    ensures RateLimitHint != ModelUnavailableHint
    ensures RateLimitHint != InvalidKeyHint
    ensures ModelUnavailableHint != InvalidKeyHint
    ensures GenericHint(msg) != RateLimitHint
    ensures GenericHint(msg) != ModelUnavailableHint
    ensures GenericHint(msg) != InvalidKeyHint
  {
    var g := GenericHint(msg);
    assert g[0] == CrossMark[0];
    assert RateLimitHint[0] == Hourglass[0];
    assert ModelUnavailableHint[0] == WarningSign[0];
    assert InvalidKeyHint[0] == KeySymbol[0];
  }

  /** The `catch` branch: the first matching bucket, in priority order, picks
      the hint; the buckets are exhaustive and mutually exclusive. */
  function ErrorResponse(msg: string): (r: string)
    ensures r == RateLimitHint <==> HasRateLimitMarker(msg)
    ensures r == ModelUnavailableHint <==> !HasRateLimitMarker(msg) && HasModelMarker(msg)
    ensures r == InvalidKeyHint <==>
              !HasRateLimitMarker(msg) && !HasModelMarker(msg) && HasKeyMarker(msg)
    ensures r == GenericHint(msg) <==>
              !HasRateLimitMarker(msg) && !HasModelMarker(msg) && !HasKeyMarker(msg)
  {
    HintsDistinct(msg);
    if HasRateLimitMarker(msg) then RateLimitHint
    else if HasModelMarker(msg) then ModelUnavailableHint
    else if HasKeyMarker(msg) then InvalidKeyHint
    else GenericHint(msg)
  }

  /** A message carrying both a rate-limit and a not-found marker gets the
      rate-limit hint. */
  lemma RateLimitWins(msg: string)
    requires Contains(msg, "429") && Contains(msg, "404")
    ensures ErrorResponse(msg) == RateLimitHint
  {
  }

  /** What `response` is set to once the call settles: non-empty text
      verbatim, a fixed sentence when the text is missing or empty, a hint
      when the call threw. */
  function ResponseFor(outcome: ServiceOutcome): (r: string)
    ensures outcome.Answered? && outcome.text.Some? && outcome.text.value != "" ==>
              r == outcome.text.value
    ensures outcome.Answered? && (outcome.text.None? || outcome.text.value == "") ==>
              r == NoAnswer
    ensures outcome.Raised? ==> r == ErrorResponse(ErrorText(outcome.error))
    ensures r != ""
  {
    match outcome
    case Answered(text) => if text.Some? && text.value != "" then text.value else NoAnswer
    case Raised(e) =>
      var msg := ErrorText(e);
      HintsDistinct(msg);
      ErrorResponse(msg)
  }

  // ---------------------------------------------------------------------
  // The request
  // ---------------------------------------------------------------------

  /** The synchronous part of `consultarGemini`: the blank-question guard,
      or the cleared panel and the request sent. */
  datatype AskStep = Ignored | Waiting(state: AiState, request: Request)

  function Ask(s: AiState): (step: AskStep)
    ensures step.Ignored? <==> IsBlank(s.question)
    ensures step.Waiting? ==>
              && step.state == s.(isLoading := true, response := [])
              && step.request == Request(ModelId, PromptPreamble + s.question)
  {
    TrimEmptyIffBlank(s.question);
    if Trim(s.question) == [] then Ignored
    else Waiting(s.(isLoading := true, response := ""), Request(ModelId, PromptPreamble + s.question))
  }

  /** The `try`/`finally` after the call settles. */
  function Settle(s: AiState, outcome: ServiceOutcome): (r: AiState)
    ensures r.question == s.question && !r.isLoading && r.response != ""
  {
    s.(response := ResponseFor(outcome), isLoading := false)
  }

  /** One whole question with nothing in between: the final state and the
      request made, if any. */
  function Consult(s: AiState, outcome: ServiceOutcome): (result: (AiState, Option<Request>))
    ensures IsBlank(s.question) ==> result == (s, None)
    ensures !IsBlank(s.question) ==>
              && result.1 == Some(Request(ModelId, PromptPreamble + s.question))
              && result.0.question == s.question
              && !result.0.isLoading
              && result.0.response == ResponseFor(outcome)
  {
    match Ask(s)
    case Ignored => (s, None)
    case Waiting(pending, request) => (Settle(pending, outcome), Some(request))
  }

  // ---------------------------------------------------------------------
  // The response label
  // ---------------------------------------------------------------------

  /** The label test as written: "Error", the hourglass or the warning sign. */
  predicate HasWarningMarker(response: string) {
    || Contains(response, "Error")
    || Contains(response, Hourglass)
    || Contains(response, WarningSign)
  }

  /** The label test as written: the warning label exactly when the response
      contains "Error", the hourglass or the warning sign, the answer label
      for every other response. */
  function LabelAsWritten(response: string): (r: string)
    ensures r == WarningLabel || r == AnswerLabel
    ensures r == WarningLabel <==>
              Contains(response, "Error") || Contains(response, Hourglass) || Contains(response, WarningSign)
  {
    if HasWarningMarker(response) then WarningLabel else AnswerLabel
  }

  /** The label test with the key symbol of the invalid-key hint added. */
  function Label(response: string): string {
    if HasWarningMarker(response) || Contains(response, KeySymbol) then WarningLabel
    else AnswerLabel
  }

  lemma HintsCarryMarkers(msg: string)
    ensures Contains(RateLimitHint, Hourglass)
    ensures Contains(ModelUnavailableHint, WarningSign)
    ensures Contains(InvalidKeyHint, KeySymbol)
    ensures Contains(GenericHint(msg), "Error")
  {
    assert RateLimitHint[..|Hourglass|] == Hourglass;
    assert ModelUnavailableHint[..|WarningSign|] == WarningSign;
    assert InvalidKeyHint[..|KeySymbol|] == KeySymbol;
    var g := GenericHint(msg);
    assert g[2..7] == "Error";
    ContainsAt(g, "Error", 2);
  }

  const InvalidKeyText := " API Key inv\U{00E1}lida. Verifica tu archivo .env"

  lemma InvalidKeyTextLacksE()
    ensures 'E' !in InvalidKeyText
  {
  }

  lemma InvalidKeyTextLacksHourglass()
    ensures Hourglass[0] !in InvalidKeyText
  {
  }

  lemma InvalidKeyTextLacksWarningSign()
    ensures WarningSign[0] !in InvalidKeyText
  {
  }

  /** The invalid-key hint carries none of the markers the label tests. */
  lemma InvalidKeyHintHasNoWarningMarker()
    ensures !HasWarningMarker(InvalidKeyHint)
  {
    InvalidKeyTextLacksE();
    InvalidKeyTextLacksHourglass();
    InvalidKeyTextLacksWarningSign();
    AbsentFirstChar(InvalidKeyHint, "Error");
    AbsentFirstChar(InvalidKeyHint, Hourglass);
    AbsentFirstChar(InvalidKeyHint, WarningSign);
  }

  /** As written, every error hint is labelled a warning except the
      invalid-key hint, which is labelled an answer. */
  lemma ErrorLabelsAsWritten(msg: string)
    ensures LabelAsWritten(ErrorResponse(msg)) == AnswerLabel <==>
              ErrorResponse(msg) == InvalidKeyHint
  {
    HintsCarryMarkers(msg);
    InvalidKeyHintHasNoWarningMarker();
  }

  /** The message a rejected key produces. */
  const SampleKeyError := "API_KEY_INVALID"

  lemma SampleKeyErrorChars()
    ensures '4' !in SampleKeyError && 'q' !in SampleKeyError
    ensures 'R' !in SampleKeyError && 'n' !in SampleKeyError
  {
  }

  lemma SampleKeyErrorNotRateLimit()
    ensures !HasRateLimitMarker(SampleKeyError)
  {
    SampleKeyErrorChars();
    AbsentFirstChar(SampleKeyError, "429");
    AbsentFirstChar(SampleKeyError, "quota");
    AbsentFirstChar(SampleKeyError, "RESOURCE_EXHAUSTED");
  }

  lemma SampleKeyErrorNotModel()
    ensures !HasModelMarker(SampleKeyError)
  {
    SampleKeyErrorChars();
    AbsentFirstChar(SampleKeyError, "not found");
    AbsentFirstChar(SampleKeyError, "404");
  }

  lemma SampleKeyErrorHasKey()
    ensures HasKeyMarker(SampleKeyError)
  {
    assert StartsWith(SampleKeyError, "API_KEY");
  }

  /** The message "API_KEY_INVALID" shows the key hint under the answer label. */
  lemma InvalidKeyShownAsAnswer()
    ensures ErrorResponse(SampleKeyError) == InvalidKeyHint
    ensures LabelAsWritten(ErrorResponse(SampleKeyError)) == AnswerLabel
  {
    SampleKeyErrorNotRateLimit();
    SampleKeyErrorNotModel();
    SampleKeyErrorHasKey();
    ErrorLabelsAsWritten(SampleKeyError);
  }

  /** With the key symbol added, every error hint is labelled a warning. */
  lemma ErrorLabelsCorrected(msg: string)
    ensures Label(ErrorResponse(msg)) == WarningLabel
  {
    HintsCarryMarkers(msg);
  }

  /** What the panel shows below the button: a label and the response,
      exactly when there is a response and no request is out; the label is
      the test as written. */
  function Panel(s: AiState): (r: Option<(string, string)>)
    ensures r.Some? <==> s.response != "" && !s.isLoading
    ensures r.Some? ==> r.value.1 == s.response && r.value.0 == LabelAsWritten(s.response)
  {
    if s.response != "" && !s.isLoading then Some((LabelAsWritten(s.response), s.response)) else None
  }

  /** The panel with the corrected label test. */
  function PanelCorrected(s: AiState): (r: Option<(string, string)>)
    ensures r.Some? <==> s.response != "" && !s.isLoading
    ensures r.Some? ==> r.value.1 == s.response && r.value.0 == Label(s.response)
  {
    if s.response != "" && !s.isLoading then Some((Label(s.response), s.response)) else None
  }

  /** Every question that passes the guard ends with the panel showing a
      response; a failed call is shown as a warning exactly when its hint is
      not the invalid-key hint. */
  lemma ConsultShowsPanel(s: AiState, outcome: ServiceOutcome)
    requires !IsBlank(s.question)
    ensures Panel(Consult(s, outcome).0).Some?
    ensures outcome.Raised? ==>
              (Panel(Consult(s, outcome).0).value.0 == WarningLabel <==>
                 ErrorResponse(ErrorText(outcome.error)) != InvalidKeyHint)
  {
    if outcome.Raised? {
      ErrorLabelsAsWritten(ErrorText(outcome.error));
    }
  }

  /** With the corrected label test, every failed call is shown as a
      warning. */
  lemma ConsultShowsPanelCorrected(s: AiState, outcome: ServiceOutcome)
    requires !IsBlank(s.question)
    ensures PanelCorrected(Consult(s, outcome).0).Some?
    ensures outcome.Raised? ==> PanelCorrected(Consult(s, outcome).0).value.0 == WarningLabel
  {
    if outcome.Raised? {
      ErrorLabelsCorrected(ErrorText(outcome.error));
    }
  }
}

=== FILE: card.dfy ===
/**
 * `getTypeColor` of the creature card (components/PokemonCard.tsx): the
 * catalog's table plus a colour for the placeholder's `glitch` type.
 */
module Card {
  import Catalog

  const CardColors: map<string, string> := map[
    "fire" := "#F08030",
    "water" := "#6890F0",
    "grass" := "#78C850",
    "poison" := "#A040A0",
    "normal" := "#A8A878",
    "electric" := "#F8D030",
    "glitch" := "#8b5cf6"
  ]

  const GlitchColor := "#8b5cf6"

  /** `colors[type] || '#68A090'`. */
  function CardTypeColor(t: string): (c: string)
    ensures t == "fire" ==> c == "#F08030"
    ensures t == "water" ==> c == "#6890F0"
    ensures t == "grass" ==> c == "#78C850"
    ensures t == "poison" ==> c == "#A040A0"
    ensures t == "normal" ==> c == "#A8A878"
    ensures t == "electric" ==> c == "#F8D030"
    ensures t == "glitch" ==> c == GlitchColor
    ensures c == Catalog.DefaultColor <==>
              t !in ["fire", "water", "grass", "poison", "normal", "electric", "glitch"]
  {
    if t in CardColors then CardColors[t] else Catalog.DefaultColor
  }

  /** The placeholder's accent differs from the default and from every other
      listed colour. */
  lemma GlitchColorIsUnique(t: string)
    requires t != "glitch"
    ensures CardTypeColor(t) != CardTypeColor("glitch")
  {
  }

  /** Apart from `glitch`, the card and the catalog colour every type alike. */
  lemma CardAgreesWithCatalog(t: string)
    requires t != "glitch"
    ensures CardTypeColor(t) == Catalog.CatalogTypeColor(t)
  {
  }
}

=== FILE: catalog.dfy ===
/**
 * The starter catalog (components/StartedCatalog.tsx): a fixed table of twelve
 * starters, their records loaded as one batch, and the loaded entries grouped
 * by region for sectioned display.
 */
module Catalog {
  import opened Wrappers
  import opened Text
  import opened Formatter

  /** One row of the `STARTERS` table. */
  datatype Descriptor = Descriptor(id: nat, name: string, region: string)

  const Starters: seq<Descriptor> := [
    Descriptor(1, "bulbasaur", "Kanto"),
    Descriptor(4, "charmander", "Kanto"),
    Descriptor(7, "squirtle", "Kanto"),
    Descriptor(152, "chikorita", "Johto"),
    Descriptor(155, "cyndaquil", "Johto"),
    Descriptor(158, "totodile", "Johto"),
    Descriptor(252, "treecko", "Hoenn"),
    Descriptor(255, "torchic", "Hoenn"),
    Descriptor(258, "mudkip", "Hoenn"),
    Descriptor(387, "turtwig", "Sinnoh"),
    Descriptor(390, "chimchar", "Sinnoh"),
    Descriptor(393, "piplup", "Sinnoh")
  ]

  const RegionOrder: seq<string> := ["Kanto", "Johto", "Hoenn", "Sinnoh"]

  /** The `StarterPokemon` interface. */
  datatype Starter = Starter(id: string, name: string, image: string, types: seq<string>, region: string)

  /** The catalog's two `useState` slots. */
  datatype CatalogState = CatalogState(starters: seq<Starter>, loading: bool)

  const InitialCatalog := CatalogState([], true)

  function DescriptorRegions(ds: seq<Descriptor>): (r: seq<string>)
    ensures |r| == |ds|
    ensures forall i :: 0 <= i < |ds| ==> r[i] == ds[i].region
  {
    seq(|ds|, i requires 0 <= i < |ds| => ds[i].region)
  }

  /** The table has twelve rows with distinct ids. */
  lemma StarterIdsDistinct()
    ensures |Starters| == 12
    ensures forall i, j :: 0 <= i < j < |Starters| ==> Starters[i].id < Starters[j].id
  {
  }

  /** No name appears twice in the table. */
  lemma StarterNamesDistinct()
    ensures forall i, j :: 0 <= i < j < |Starters| ==> Starters[i].name != Starters[j].name
  {
  }

  lemma StarterRegionColumn()
    ensures DescriptorRegions(Starters) == StarterRegions
  {
    var r := DescriptorRegions(Starters);
    assert |r| == |StarterRegions|;
    forall i | 0 <= i < |r|
      ensures r[i] == StarterRegions[i]
    {
    }
  }

  /** The four region names differ in their first letter. */
  lemma RegionNamesDistinct()
    ensures forall j, k :: 0 <= j < k < |RegionOrder| ==> RegionOrder[j] != RegionOrder[k]
  {
    assert "Kanto"[0] == 'K' && "Johto"[0] == 'J' && "Hoenn"[0] == 'H' && "Sinnoh"[0] == 'S';
  }

  /** Four runs of three distinct strings hold each string three times. */
  lemma RunsCounted(a: string, b: string, c: string, d: string)
    requires a != b && a != c && a != d && b != c && b != d && c != d
    ensures var m := multiset(RunsOf(a, b, c, d)); m[a] == 3 && m[b] == 3 && m[c] == 3 && m[d] == 3
  {
    assert multiset(RunsOf(a, b, c, d)) == multiset{a, a, a, b, b, b, c, c, c, d, d, d};
  }

  /** Three rows per region. */
  lemma StarterRegionsCounted()
    ensures forall k :: 0 <= k < |RegionOrder| ==> multiset(DescriptorRegions(Starters))[RegionOrder[k]] == 3
  {
    StarterRegionColumn();
    RegionNamesDistinct();
    RunsCounted("Kanto", "Johto", "Hoenn", "Sinnoh");
  }

  /** No row names a region outside the four. */
  lemma StarterRegionsKnown()
    ensures forall i :: 0 <= i < |Starters| ==> Starters[i].region in RegionOrder
  {
  }

  /** The region column of the table, written out. */
  const StarterRegions: seq<string> := RunsOf("Kanto", "Johto", "Hoenn", "Sinnoh")

  /** Four runs of three copies each. */
  function RunsOf(a: string, b: string, c: string, d: string): seq<string> {
    [a, a, a, b, b, b, c, c, c, d, d, d]
  }

  /** The object one starter's promise resolves to: the record's id, name,
      sprite and types, with the region taken from the table row. */
  function ToStarter(d: Descriptor, raw: RawRecord): (e: Starter)
    ensures e.region == d.region
    ensures e.name == raw.name && e.image == raw.sprite && e.types == raw.types
    ensures AllDigits(e.id) && |e.id| == Max(3, DigitCount(raw.id))
    ensures ParseDecimal(e.id) == raw.id
  {
    Starter(FormatId(raw.id), raw.name, raw.sprite, raw.types, d.region)
  }

  /** Every request in the batch settled with a record. */
  predicate AllFetched(outcomes: seq<FetchOutcome>) {
    forall i :: 0 <= i < |outcomes| ==> outcomes[i].Fetched?
  }

  lemma AllFetchedCons(outcomes: seq<FetchOutcome>)
    requires |outcomes| > 0
    ensures AllFetched(outcomes) <==> outcomes[0].Fetched? && AllFetched(outcomes[1..])
  {
    var os' := outcomes[1..];
    if outcomes[0].Fetched? && AllFetched(os') {
      forall i | 0 <= i < |outcomes|
        ensures outcomes[i].Fetched?
      {
        if i > 0 {
          assert outcomes[i] == os'[i - 1];
        }
      }
    }
    if AllFetched(outcomes) {
      forall i | 0 <= i < |os'|
        ensures os'[i].Fetched?
      {
        assert os'[i] == outcomes[i + 1];
      }
    }
  }

  /** `Promise.all` over the settled requests: a value exactly when every
      request succeeded, and then every record in request order, whatever
      order the requests completed in. */
  function Collect(outcomes: seq<FetchOutcome>): (r: Option<seq<RawRecord>>)
    ensures r.Some? <==> AllFetched(outcomes)
    ensures r.Some? ==>
              && |r.value| == |outcomes|
              && forall i :: 0 <= i < |outcomes| ==> r.value[i] == outcomes[i].record
  {
    if |outcomes| == 0 then Some([])
    else
      AllFetchedCons(outcomes);
      match outcomes[0]
      case FetchFailed => None
      case Fetched(raw) =>
        match Collect(outcomes[1..])
        case None => None
        case Some(rest) =>
          assert forall i :: 0 < i < |outcomes| ==> outcomes[i] == outcomes[1..][i - 1];
          Some([raw] + rest)
  }

  /** The per-starter promises, each turning its row's record into an
      entry, gathered by `Promise.all`. `outcomes[i]` is the settled request
      for `ds[i]`, whenever it completed. All or nothing: a value exactly
      when every request succeeded, and then exactly the entries of the
      rows. */
  function LoadAll(ds: seq<Descriptor>, outcomes: seq<FetchOutcome>): (r: Option<seq<Starter>>)
    requires |outcomes| == |ds|
    ensures r.Some? <==> AllFetched(outcomes)
    ensures AllFetched(outcomes) ==> r == Some(Entries(ds, outcomes))
  {
    match Collect(outcomes)
    case None => None
    case Some(records) =>
      var loaded := seq(|ds|, i requires 0 <= i < |ds| => ToStarter(ds[i], records[i]));
      assert loaded == Entries(ds, outcomes) by {
        forall i | 0 <= i < |ds|
          ensures records[i] == outcomes[i].record
        {
        }
      }
      Some(loaded)
  }

  /** One entry per row, in row order, built from that row's record. */
  function Entries(ds: seq<Descriptor>, outcomes: seq<FetchOutcome>): seq<Starter>
    requires |outcomes| == |ds|
    requires AllFetched(outcomes)
  {
    seq(|ds|, i requires 0 <= i < |ds| => ToStarter(ds[i], outcomes[i].record))
  }

  /** `loadStarters`: all twelve entries or none, and the spinner stops
      either way. */
  function LoadStarters(s: CatalogState, outcomes: seq<FetchOutcome>): (r: CatalogState)
    requires |outcomes| == |Starters|
    ensures !r.loading
    ensures AllFetched(outcomes) ==> r.starters == Entries(Starters, outcomes)
    ensures !AllFetched(outcomes) ==> r.starters == s.starters
  {
    match LoadAll(Starters, outcomes)
    case Some(loaded) => CatalogState(loaded, false)
    case None => s.(loading := false)
  }

  // ---------------------------------------------------------------------
  // Grouping by region
  // ---------------------------------------------------------------------

  function RegionsOf(xs: seq<Starter>): (r: seq<string>)
    ensures |r| == |xs|
    ensures forall i :: 0 <= i < |xs| ==> r[i] == xs[i].region
  {
    seq(|xs|, i requires 0 <= i < |xs| => xs[i].region)
  }

  /** The distinct strings of `xs`, in order of first appearance. */
  function FirstAppearances(xs: seq<string>): seq<string> {
    if |xs| == 0 then []
    else
      var prior := FirstAppearances(xs[..|xs| - 1]);
      if xs[|xs| - 1] in prior then prior else prior + [xs[|xs| - 1]]
  }

  /** A string is among the first appearances exactly when it occurs. */
  lemma {:induction false} FirstAppearancesMember(xs: seq<string>, x: string)
    ensures x in FirstAppearances(xs) <==> x in xs
  {
    if |xs| > 0 {
      var p := xs[..|xs| - 1];
      FirstAppearancesMember(p, x);
      FirstAppearancesMember(p, xs[|xs| - 1]);
      assert xs == p + [xs[|xs| - 1]];
    }
  }

  /** No string appears twice among the first appearances. */
  lemma {:induction false} FirstAppearancesDistinct(xs: seq<string>)
    ensures forall i, j :: 0 <= i < j < |FirstAppearances(xs)| ==>
              FirstAppearances(xs)[i] != FirstAppearances(xs)[j]
  {
    if |xs| > 0 {
      var p := xs[..|xs| - 1];
      FirstAppearancesDistinct(p);
      FirstAppearancesMember(p, xs[|xs| - 1]);
    }
  }

  /** The entries of `xs` in `region`, in their order in `xs`. */
  function InRegion(xs: seq<Starter>, region: string): (r: seq<Starter>)
    ensures |r| <= |xs|
    ensures forall e :: e in r ==> e in xs && e.region == region
  {
    if |xs| == 0 then []
    else InRegion(xs[..|xs| - 1], region) + (if xs[|xs| - 1].region == region then [xs[|xs| - 1]] else [])
  }

  /** One section of the catalog. */
  datatype Group = Group(region: string, members: seq<Starter>)

  function TotalSize(gs: seq<Group>): nat {
    if |gs| == 0 then 0 else TotalSize(gs[..|gs| - 1]) + |gs[|gs| - 1].members|
  }

  lemma {:induction false} TotalSizeAppend(gs: seq<Group>, g: Group)
    ensures TotalSize(gs + [g]) == TotalSize(gs) + |g.members|
  {
    assert (gs + [g])[..|gs|] == gs;
  }

  lemma {:induction false} TotalSizeUpdate(gs: seq<Group>, k: nat, g: Group)
    requires k < |gs|
    ensures TotalSize(gs[k := g]) == TotalSize(gs) - |gs[k].members| + |g.members|
    decreases |gs|
  {
    var last := |gs| - 1;
    if k < last {
      assert gs[k := g][..last] == gs[..last][k := g];
      TotalSizeUpdate(gs[..last], k, g);
    } else {
      assert gs[k := g][..last] == gs[..last];
    }
  }

  /** Index of the group for `region`, or -1 when there is none yet. */
  function FindGroup(gs: seq<Group>, region: string): (k: int)
    ensures -1 <= k < |gs|
    ensures k >= 0 ==> gs[k].region == region
    ensures k == -1 ==> forall j :: 0 <= j < |gs| ==> gs[j].region != region
  {
    if |gs| == 0 then -1
    else if gs[|gs| - 1].region == region then |gs| - 1
    else FindGroup(gs[..|gs| - 1], region)
  }

  /** `gs` is the grouping of `xs`: one group per region of `xs` in order of
      first appearance, each holding that region's entries in order. */
  ghost predicate Grouped(gs: seq<Group>, xs: seq<Starter>) {
    && |gs| == |FirstAppearances(RegionsOf(xs))|
    && (forall k :: 0 <= k < |gs| ==> gs[k].region == FirstAppearances(RegionsOf(xs))[k])
    && (forall k :: 0 <= k < |gs| ==> gs[k].members == InRegion(xs, gs[k].region))
    && (forall k :: 0 <= k < |gs| ==> |gs[k].members| > 0)
  }

  lemma RegionsOfSnoc(xs: seq<Starter>, s: Starter)
    ensures RegionsOf(xs + [s]) == RegionsOf(xs) + [s.region]
  {
  }

  lemma InRegionSnoc(xs: seq<Starter>, s: Starter, region: string)
    ensures InRegion(xs + [s], region) ==
              InRegion(xs, region) + (if s.region == region then [s] else [])
  {
    assert (xs + [s])[..|xs|] == xs;
  }

  /** A region that no entry carries has no entries. */
  lemma InRegionAbsent(xs: seq<Starter>, region: string)
    requires region !in RegionsOf(xs)
    ensures InRegion(xs, region) == []
  {
  }

  /** The first entry of a region not seen before opens a new group at the end. */
  lemma GroupedNew(gs: seq<Group>, xs: seq<Starter>, s: Starter)
    requires Grouped(gs, xs)
    requires forall j :: 0 <= j < |gs| ==> gs[j].region != s.region
    ensures Grouped(gs + [Group(s.region, [s])], xs + [s])
  {
    var regs := RegionsOf(xs);
    var fa := FirstAppearances(regs);
    var fa' := FirstAppearances(RegionsOf(xs + [s]));
    assert s.region !in regs by {
      assert s.region !in fa;
      FirstAppearancesMember(regs, s.region);
    }
    assert fa' == fa + [s.region] by {
      RegionsOfSnoc(xs, s);
      FirstAppearancesSnocNew(regs, s.region);
    }
    var gs' := gs + [Group(s.region, [s])];
    forall k | 0 <= k < |gs'|
      ensures gs'[k].region == fa'[k]
      ensures gs'[k].members == InRegion(xs + [s], gs'[k].region)
      ensures |gs'[k].members| > 0
    {
      if k < |gs| {
        assert gs'[k] == gs[k];
        InRegionSnoc(xs, s, gs[k].region);
      } else {
        InRegionAbsent(xs, s.region);
        InRegionSnoc(xs, s, s.region);
      }
    }
  }

  /** A later entry of a known region is appended to that region's group. */
  lemma GroupedExisting(gs: seq<Group>, xs: seq<Starter>, s: Starter, k: nat)
    requires Grouped(gs, xs)
    requires k < |gs| && gs[k].region == s.region
    ensures Grouped(gs[k := Group(s.region, gs[k].members + [s])], xs + [s])
  {
    var regs := RegionsOf(xs);
    var fa := FirstAppearances(regs);
    FirstAppearancesDistinct(regs);
    assert s.region == fa[k];
    FirstAppearancesMember(regs, s.region);
    RegionsOfSnoc(xs, s);
    FirstAppearancesSnocSeen(regs, s.region);
    var fa' := FirstAppearances(RegionsOf(xs + [s]));
    assert fa' == fa;
    var gs' := gs[k := Group(s.region, gs[k].members + [s])];
    assert |gs'| == |fa'|;
    forall j | 0 <= j < |gs'|
      ensures gs'[j].region == fa'[j]
      ensures gs'[j].members == InRegion(xs + [s], gs'[j].region)
      ensures |gs'[j].members| > 0
    {
      InRegionSnoc(xs, s, gs[j].region);
      if j != k {
        assert gs[j].region != gs[k].region;
      }
    }
  }

  /** The body of the `forEach`: open the entry's region group if it is
      missing, then push the entry onto it. */
  function AddToGroups(gs: seq<Group>, s: Starter): (r: seq<Group>)
    ensures TotalSize(r) == TotalSize(gs) + 1
  {
    var k := FindGroup(gs, s.region);
    if k == -1 then
      TotalSizeAppend(gs, Group(s.region, [s]));
      gs + [Group(s.region, [s])]
    else
      TotalSizeUpdate(gs, k, Group(s.region, gs[k].members + [s]));
      gs[k := Group(s.region, gs[k].members + [s])]
  }

  /** Adding the next entry to the grouping of a prefix gives the grouping
      of the prefix one longer. */
  lemma AddToGroupsStep(gs: seq<Group>, xs: seq<Starter>, i: nat)
    requires i < |xs| && Grouped(gs, xs[..i])
    ensures Grouped(AddToGroups(gs, xs[i]), xs[..i + 1])
  {
    var s := xs[i];
    assert xs[..i + 1] == xs[..i] + [s];
    var k := FindGroup(gs, s.region);
    if k == -1 {
      GroupedNew(gs, xs[..i], s);
    } else {
      GroupedExisting(gs, xs[..i], s, k);
    }
  }

  /** The `groupedStarters` object as `Object.entries` lists it (see
      `Grouped`), with as many entries in all as there are starters. */
  method GroupByRegion(starters: seq<Starter>) returns (groups: seq<Group>)
    ensures Grouped(groups, starters)
    ensures TotalSize(groups) == |starters|
  {
    groups := [];
    var i := 0;
    while i < |starters|
      invariant 0 <= i <= |starters|
      invariant Grouped(groups, starters[..i])
      invariant TotalSize(groups) == i
    {
      AddToGroupsStep(groups, starters, i);
      groups := AddToGroups(groups, starters[i]);
      i := i + 1;
    }
    assert starters[..i] == starters;
  }

  function GroupRegions(gs: seq<Group>): (r: seq<string>)
    ensures |r| == |gs|
    ensures forall k :: 0 <= k < |gs| ==> r[k] == gs[k].region
  {
    seq(|gs|, k requires 0 <= k < |gs| => gs[k].region)
  }

  /** In a grouping every entry sits in the one group keyed by its region:
      the keys are distinct, each entry's region is a key, and a group holds
      only entries of its own region. */
  lemma GroupedPlacesEachEntryOnce(gs: seq<Group>, xs: seq<Starter>)
    requires Grouped(gs, xs)
    ensures forall j, k :: 0 <= j < k < |gs| ==> gs[j].region != gs[k].region
    ensures forall i :: 0 <= i < |xs| ==> xs[i].region in GroupRegions(gs)
    ensures forall k, e :: 0 <= k < |gs| && e in gs[k].members ==> e in xs && e.region == gs[k].region
  {
    FirstAppearancesDistinct(RegionsOf(xs));
    assert GroupRegions(gs) == FirstAppearances(RegionsOf(xs));
    forall i | 0 <= i < |xs|
      ensures xs[i].region in GroupRegions(gs)
    {
      assert RegionsOf(xs)[i] == xs[i].region;
      FirstAppearancesMember(RegionsOf(xs), xs[i].region);
    }
  }

  /** A section's size is the number of entries carrying its region. */
  lemma {:induction false} InRegionSize(xs: seq<Starter>, region: string)
    ensures |InRegion(xs, region)| == multiset(RegionsOf(xs))[region]
  {
    if |xs| > 0 {
      var p := xs[..|xs| - 1];
      assert RegionsOf(xs) == RegionsOf(p) + [xs[|xs| - 1].region];
      InRegionSize(p, region);
    }
  }

  lemma FirstAppearancesSnocNew(xs: seq<string>, x: string)
    requires x !in xs
    ensures FirstAppearances(xs + [x]) == FirstAppearances(xs) + [x]
  {
    FirstAppearancesMember(xs, x);
    assert (xs + [x])[..|xs|] == xs;
  }

  lemma FirstAppearancesSnocSeen(xs: seq<string>, x: string)
    requires x in xs
    ensures FirstAppearances(xs + [x]) == FirstAppearances(xs)
  {
    FirstAppearancesMember(xs, x);
    assert (xs + [x])[..|xs|] == xs;
  }

  /** A run of three copies of a new string adds it once. */
  lemma FirstAppearancesRun(xs: seq<string>, x: string)
    requires x !in xs
    ensures FirstAppearances(xs + [x] + [x] + [x]) == FirstAppearances(xs) + [x]
  {
    var ys := xs + [x];
    var zs := ys + [x];
    var ws := zs + [x];
    assert FirstAppearances(ys) == FirstAppearances(xs) + [x] by {
      FirstAppearancesSnocNew(xs, x);
    }
    assert FirstAppearances(zs) == FirstAppearances(ys) by {
      assert ys[|xs|] == x;
      FirstAppearancesSnocSeen(ys, x);
    }
    assert FirstAppearances(ws) == FirstAppearances(zs) by {
      assert zs[|xs|] == x;
      FirstAppearancesSnocSeen(zs, x);
    }
  }

  lemma FirstAppearancesOfTwoRuns(a: string, b: string)
    requires a != b
    ensures FirstAppearances([a, a, a, b, b, b]) == [a, b]
  {
    var e: seq<string> := [];
    var s1: seq<string> := [a, a, a];
    assert FirstAppearances(s1) == [a] by {
      assert FirstAppearances(e) == [];
      FirstAppearancesRun(e, a);
      assert e + [a] + [a] + [a] == s1;
    }
    FirstAppearancesRun(s1, b);
    assert s1 + [b] + [b] + [b] == [a, a, a, b, b, b];
  }

  lemma FirstAppearancesOfThreeRuns(a: string, b: string, c: string)
    requires a != b && a != c && b != c
    ensures FirstAppearances([a, a, a, b, b, b, c, c, c]) == [a, b, c]
  {
    var s2: seq<string> := [a, a, a, b, b, b];
    assert FirstAppearances(s2) == [a, b] by {
      FirstAppearancesOfTwoRuns(a, b);
    }
    FirstAppearancesRun(s2, c);
    assert s2 + [c] + [c] + [c] == [a, a, a, b, b, b, c, c, c];
  }

  /** Runs of three of four distinct strings appear once each, in run order. */
  lemma FirstAppearancesOfRuns(a: string, b: string, c: string, d: string)
    requires a != b && a != c && a != d && b != c && b != d && c != d
    ensures FirstAppearances(RunsOf(a, b, c, d)) == [a, b, c, d]
  {
    var s3: seq<string> := [a, a, a, b, b, b, c, c, c];
    assert FirstAppearances(s3) == [a, b, c] by {
      FirstAppearancesOfThreeRuns(a, b, c);
    }
    FirstAppearancesRun(s3, d);
    assert s3 + [d] + [d] + [d] == RunsOf(a, b, c, d);
  }

  /** A successful load keeps the table's region column. */
  lemma LoadedRegions(outcomes: seq<FetchOutcome>)
    requires |outcomes| == |Starters|
    requires AllFetched(outcomes)
    ensures RegionsOf(LoadStarters(InitialCatalog, outcomes).starters) == StarterRegions
  {
    var xs := LoadStarters(InitialCatalog, outcomes).starters;
    var r := RegionsOf(xs);
    StarterRegionColumn();
    forall i | 0 <= i < |r|
      ensures r[i] == StarterRegions[i]
    {
      assert r[i] == Starters[i].region == DescriptorRegions(Starters)[i];
    }
  }

  /** After a successful load the sections are Kanto, Johto, Hoenn and Sinnoh,
      in that order, three entries each. */
  lemma LoadedSections(outcomes: seq<FetchOutcome>)
    requires |outcomes| == |Starters|
    requires AllFetched(outcomes)
    ensures FirstAppearances(RegionsOf(LoadStarters(InitialCatalog, outcomes).starters)) == RegionOrder
    ensures forall k :: 0 <= k < |RegionOrder| ==>
              |InRegion(LoadStarters(InitialCatalog, outcomes).starters, RegionOrder[k])| == 3
  {
    var xs := LoadStarters(InitialCatalog, outcomes).starters;
    LoadedRegions(outcomes);
    RegionNamesDistinct();
    FirstAppearancesOfRuns("Kanto", "Johto", "Hoenn", "Sinnoh");
    assert FirstAppearances(RegionsOf(xs)) == RegionOrder;
    forall k | 0 <= k < |RegionOrder|
      ensures |InRegion(xs, RegionOrder[k])| == 3
    {
      StarterRegionColumn();
      StarterRegionsCounted();
      InRegionSize(xs, RegionOrder[k]);
    }
  }

  /** The `getTypeColor` table of the catalog. */
  const CatalogColors: map<string, string> := map[
    "fire" := "#F08030",
    "water" := "#6890F0",
    "grass" := "#78C850",
    "poison" := "#A040A0",
    "normal" := "#A8A878",
    "electric" := "#F8D030"
  ]

  const DefaultColor := "#68A090"

  /** `colors[type] || '#68A090'`. */
  function CatalogTypeColor(t: string): (c: string)
    ensures t == "fire" ==> c == "#F08030"
    ensures t == "water" ==> c == "#6890F0"
    ensures t == "grass" ==> c == "#78C850"
    ensures t == "poison" ==> c == "#A040A0"
    ensures t == "normal" ==> c == "#A8A878"
    ensures t == "electric" ==> c == "#F8D030"
    ensures c == DefaultColor <==> t !in ["fire", "water", "grass", "poison", "normal", "electric"]
  {
    if t in CatalogColors then CatalogColors[t] else DefaultColor
  }
}

=== FILE: formatter.dfy ===
/**
 * The search screen's display model (app/index.tsx): the creature record the
 * API returns, already parsed, and its conversion into render-ready text.
 */
module Formatter {
  import opened Wrappers
  import opened Text

  /** Where the card's picture comes from: the record's sprite URL, or the
      bundled MissingNo. artwork. Both are opaque here. */
  datatype Image = Sprite(url: string) | MissingNoArt

  /** One `{stat: {name}, base_stat}` entry of the API record. */
  datatype RawStat = RawStat(key: string, baseStat: nat)

  /** The fields of the API record the screen reads. Heights and weights are
      in the API's integer tenths (decimetres, hectograms). */
  datatype RawRecord = RawRecord(
    id: nat,
    name: string,
    sprite: string,
    types: seq<string>,
    height: nat,
    weight: nat,
    stats: seq<RawStat>)

  /** What an awaited request for one record came to: the parsed record, or
      any rejection (a 404, a network failure, a record missing a field). */
  datatype FetchOutcome = Fetched(record: RawRecord) | FetchFailed

  datatype Stat = Stat(name: string, value: string)

  /** The `Pokemon` interface: every field is ready to render. */
  datatype Pokemon = Pokemon(
    id: string,
    name: string,
    image: Image,
    types: seq<string>,
    height: string,
    weight: string,
    stats: seq<Stat>)

  const MetreUnit := " m"
  const KilogramUnit := " kg"

  /** The six stat keys the API uses, in the API's order. */
  const StatKeys: seq<string> :=
    ["hp", "attack", "defense", "special-attack", "special-defense", "speed"]

  /** The `translations` table of `translateStatName`. */
  const StatTranslations: map<string, string> := map[
    "hp" := "PS",
    "attack" := "Ataque",
    "defense" := "Defensa",
    "special-attack" := "At. Especial",
    "special-defense" := "Def. Especial",
    "speed" := "Velocidad"
  ]

  /** `translations[name] || name`: the Spanish label of a known stat key,
      any other key unchanged. */
  function TranslateStatName(key: string): (r: string)
    ensures key == "hp" ==> r == "PS"
    ensures key == "attack" ==> r == "Ataque"
    ensures key == "defense" ==> r == "Defensa"
    ensures key == "special-attack" ==> r == "At. Especial"
    ensures key == "special-defense" ==> r == "Def. Especial"
    ensures key == "speed" ==> r == "Velocidad"
    ensures r != key <==> key in StatKeys
  {
    if key in StatTranslations then StatTranslations[key] else key
  }

  /** `id.toString().padStart(3, '0')`. */
  function FormatId(n: nat): (r: string)
    ensures |r| == Max(3, DigitCount(n))
    ensures AllDigits(r)
    ensures ParseDecimal(r) == n
  {
    var digits := NatToString(n);
    NatToStringRoundTrip(n);
    LeadingZerosIgnored(Max(3, |digits|) - |digits|, digits);
    PadStart(digits, 3, '0')
  }

  /** `${(tenths / 10).toFixed(1)}${unit}` for a non-negative integer number of
      tenths: the whole part, a point, the tenths digit, then the unit. */
  function FormatTenths(tenths: nat, unit: string): (r: string)
    ensures |r| == DigitCount(tenths / 10) + 2 + |unit|
    ensures |r| >= |unit| + 3 && r[|r| - |unit|..] == unit
    ensures r[|r| - |unit| - 2] == '.'
    ensures AllDigits(r[..|r| - |unit| - 2]) && ParseDecimal(r[..|r| - |unit| - 2]) == tenths / 10
    ensures IsDigit(r[|r| - |unit| - 1]) && DigitValue(r[|r| - |unit| - 1]) == tenths % 10
  {
    var w := NatToString(tenths / 10);
    var text := w + "." + [DigitChar(tenths % 10)] + unit;
    assert text[..|text| - |unit| - 2] == w;
    NatToStringRoundTrip(tenths / 10);
    text
  }

  /** Reads a measurement back: `<digits>.<digit><unit>` denotes that many tenths;
      any other text is rejected. */
  function ParseTenths(s: string, unit: string): Option<nat> {
    if |s| < |unit| + 3 || s[|s| - |unit|..] != unit then None
    else
      var body := s[..|s| - |unit|];
      var whole := body[..|body| - 2];
      if body[|body| - 2] == '.' && IsDigit(body[|body| - 1]) && AllDigits(whole)
      then Some(ParseDecimal(whole) * 10 + DigitValue(body[|body| - 1]))
      else None
  }

  /** The measurement text has the shape `<digits>.<digit><unit>` and denotes
      exactly the tenths it was made from. */
  lemma FormatTenthsRoundTrip(tenths: nat, unit: string)
    ensures ParseTenths(FormatTenths(tenths, unit), unit) == Some(tenths)
  {
    var w := NatToString(tenths / 10);
    var s := FormatTenths(tenths, unit);
    assert s == w + ['.', DigitChar(tenths % 10)] + unit;
    assert s[|s| - |unit|..] == unit;
    var body := s[..|s| - |unit|];
    assert body == w + ['.', DigitChar(tenths % 10)];
    assert body[..|body| - 2] == w;
    NatToStringRoundTrip(tenths / 10);
  }

  /** Different measurements never render alike. */
  lemma FormatTenthsInjective(m: nat, n: nat, unit: string)
    requires FormatTenths(m, unit) == FormatTenths(n, unit)
    ensures m == n
  {
    FormatTenthsRoundTrip(m, unit);
    FormatTenthsRoundTrip(n, unit);
  }

  /** One `{ name, value }` entry: the translated key and the decimal value. */
  function FormatStat(s: RawStat): (r: Stat)
    ensures r.name == TranslateStatName(s.key)
    ensures AllDigits(r.value) && ParseDecimal(r.value) == s.baseStat
    ensures |r.value| == DigitCount(s.baseStat)
  {
    NatToStringRoundTrip(s.baseStat);
    Stat(TranslateStatName(s.key), NatToString(s.baseStat))
  }

  function FormatStats(stats: seq<RawStat>): (r: seq<Stat>)
    ensures |r| == |stats|
    ensures forall i :: 0 <= i < |r| ==> r[i] == FormatStat(stats[i])
  {
    seq(|stats|, i requires 0 <= i < |stats| => FormatStat(stats[i]))
  }

  /** The `pokemonData` object built from a successful response. */
  function FormatRecord(raw: RawRecord): (p: Pokemon)
    ensures p.id == FormatId(raw.id)
    ensures p.height == FormatTenths(raw.height, MetreUnit) && p.weight == FormatTenths(raw.weight, KilogramUnit)
    ensures p.name == raw.name && p.types == raw.types && p.image == Sprite(raw.sprite)
    ensures |p.stats| == |raw.stats|
    ensures forall i :: 0 <= i < |p.stats| ==> p.stats[i] == FormatStat(raw.stats[i])
  {
    Pokemon(
      FormatId(raw.id),
      raw.name,
      Sprite(raw.sprite),
      raw.types,
      FormatTenths(raw.height, MetreUnit),
      FormatTenths(raw.weight, KilogramUnit),
      FormatStats(raw.stats))
  }

  /** Height and weight read back as the record's tenths of a metre and of a
      kilogram. */
  lemma FormatRecordMeasures(raw: RawRecord)
    ensures ParseTenths(FormatRecord(raw).height, MetreUnit) == Some(raw.height)
    ensures ParseTenths(FormatRecord(raw).weight, KilogramUnit) == Some(raw.weight)
  {
    FormatTenthsRoundTrip(raw.height, MetreUnit);
    FormatTenthsRoundTrip(raw.weight, KilogramUnit);
  }

  /** Pikachu (#25, 0.4 m, 6.0 kg) renders as "025", "0.4 m" and "6.0 kg". */
  lemma PikachuExample(raw: RawRecord)
    requires raw.id == 25 && raw.height == 4 && raw.weight == 60
    ensures FormatRecord(raw).id == "025"
    ensures FormatRecord(raw).height == "0.4 m"
    ensures FormatRecord(raw).weight == "6.0 kg"
  {
    assert NatToString(25) == "25";
    assert NatToString(6) == "6";
  }
}

=== FILE: missingno.dfy ===
/**
 * `createMissingNo` (app/index.tsx): the glitch placeholder shown when a
 * lookup fails. `Math.floor(Math.random() * 9)` is replaced by a sequence of
 * rolls, consumed in the order the object literal evaluates its fields.
 */
module MissingNo {
  import opened Text
  import opened Formatter

  /** One draw of `Math.floor(Math.random() * glitchSymbols.length)`. */
  type Roll = r: nat | r < 9

  /** The nine `glitchSymbols`. The file spells each as three characters,
      U+0442 U+0426 and a third letter: the UTF-8 bytes of a block element
      read in code page 866. Each stands here for the one block element it
      mis-encodes; the nine are pairwise distinct. */
  const Glyphs: seq<char> :=
    ['\U{2588}', '\U{2593}', '\U{2592}', '\U{2591}', '\U{2580}',
     '\U{2584}', '\U{258C}', '\U{2590}', '\U{25A0}']

  /** Draws made by one call: 3 for the id, 3 each for height and weight,
      3 for each of the six stats. */
  const RollsPerCall := 27

  const MissingNoName := "MissingNo."
  const GlitchType := "glitch"

  /** The six stat labels the placeholder writes out literally. */
  const GlitchStatLabels: seq<string> :=
    ["PS", "Ataque", "Defensa", "At. Especial", "Def. Especial", "Velocidad"]

  lemma GlyphsDistinct()
    ensures |Glyphs| == 9
    ensures forall i, j :: 0 <= i < j < |Glyphs| ==> Glyphs[i] != Glyphs[j]
  {
  }

  /** `randomGlitch()`. */
  function Glyph(r: Roll): (c: char)
    ensures c in Glyphs
  {
    Glyphs[r]
  }

  /** `glitchNumber()`: three glyphs. */
  function GlitchNumber(r: seq<Roll>): string
    requires |r| == 3
  {
    [Glyph(r[0]), Glyph(r[1]), Glyph(r[2])]
  }

  /** Glyph, glyph, point, glyph, then the unit. */
  function GlitchMeasure(r: seq<Roll>, unit: string): string
    requires |r| == 3
  {
    [Glyph(r[0]), Glyph(r[1]), '.', Glyph(r[2])] + unit
  }

  predicate IsGlitchNumber(s: string) {
    |s| == 3 && forall i :: 0 <= i < 3 ==> s[i] in Glyphs
  }

  predicate IsGlitchMeasure(s: string, unit: string) {
    && |s| == 4 + |unit|
    && s[0] in Glyphs && s[1] in Glyphs && s[2] == '.' && s[3] in Glyphs
    && s[4..] == unit
  }

  predicate AllGlitchValues(stats: seq<Stat>) {
    forall i :: 0 <= i < |stats| ==> IsGlitchNumber(stats[i].value)
  }

  /** Everything a placeholder is promised to be, independent of the rolls. */
  predicate IsMissingNo(p: Pokemon) {
    && p.name == MissingNoName
    && p.image == MissingNoArt
    && p.types == [GlitchType]
    && IsGlitchNumber(p.id)
    && IsGlitchMeasure(p.height, MetreUnit)
    && IsGlitchMeasure(p.weight, KilogramUnit)
    && |p.stats| == 6
    && (forall i :: 0 <= i < 6 ==> p.stats[i].name == TranslateStatName(StatKeys[i]))
    && AllGlitchValues(p.stats)
  }

  /** One stat per label, each valued with the next three draws. */
  function GlitchStats(labels: seq<string>, r: seq<Roll>): (stats: seq<Stat>)
    requires |r| == 3 * |labels|
    ensures |stats| == |labels|
    ensures forall i :: 0 <= i < |labels| ==> stats[i].name == labels[i]
    ensures AllGlitchValues(stats)
  {
    if |labels| == 0 then []
    else [Stat(labels[0], GlitchNumber(r[..3]))] + GlitchStats(labels[1..], r[3..])
  }

  /** The placeholder's labels are exactly `translateStatName` of the six
      API keys, in order. */
  lemma GlitchLabelsAreTranslations()
    ensures forall i :: 0 <= i < 6 ==> GlitchStatLabels[i] == TranslateStatName(StatKeys[i])
  {
  }

  /** `createMissingNo()` given the 27 draws it makes. */
  function CreateMissingNo(rolls: seq<Roll>): (p: Pokemon)
    requires |rolls| == RollsPerCall
    ensures IsMissingNo(p)
  {
    GlitchLabelsAreTranslations();
    Pokemon(
      GlitchNumber(rolls[0..3]),
      MissingNoName,
      MissingNoArt,
      [GlitchType],
      GlitchMeasure(rolls[3..6], MetreUnit),
      GlitchMeasure(rolls[6..9], KilogramUnit),
      GlitchStats(GlitchStatLabels, rolls[9..]))
  }

  // ---------------------------------------------------------------------
  // The draws can be read back off the placeholder
  // ---------------------------------------------------------------------

  function GlyphIndex(c: char): (r: Roll)
    requires c in Glyphs
    ensures Glyphs[r] == c
  {
    if c == Glyphs[0] then 0
    else if c == Glyphs[1] then 1
    else if c == Glyphs[2] then 2
    else if c == Glyphs[3] then 3
    else if c == Glyphs[4] then 4
    else if c == Glyphs[5] then 5
    else if c == Glyphs[6] then 6
    else if c == Glyphs[7] then 7
    else 8
  }

  lemma GlyphIndexOfGlyph(r: Roll)
    ensures GlyphIndex(Glyph(r)) == r
  {
    GlyphsDistinct();
  }

  function NumberRolls(s: string): (r: seq<Roll>)
    requires IsGlitchNumber(s)
    ensures |r| == 3 && GlitchNumber(r) == s
  {
    [GlyphIndex(s[0]), GlyphIndex(s[1]), GlyphIndex(s[2])]
  }

  function MeasureRolls(s: string, unit: string): (r: seq<Roll>)
    requires IsGlitchMeasure(s, unit)
    ensures |r| == 3 && GlitchMeasure(r, unit) == s
  {
    [GlyphIndex(s[0]), GlyphIndex(s[1]), GlyphIndex(s[3])]
  }

  lemma NumberRollsOfGlitchNumber(r: seq<Roll>)
    requires |r| == 3
    ensures NumberRolls(GlitchNumber(r)) == r
  {
    GlyphIndexOfGlyph(r[0]);
    GlyphIndexOfGlyph(r[1]);
    GlyphIndexOfGlyph(r[2]);
  }

  lemma MeasureRollsOfGlitchMeasure(r: seq<Roll>, unit: string)
    requires |r| == 3
    ensures MeasureRolls(GlitchMeasure(r, unit), unit) == r
  {
    GlyphIndexOfGlyph(r[0]);
    GlyphIndexOfGlyph(r[1]);
    GlyphIndexOfGlyph(r[2]);
  }

  function StatsRolls(stats: seq<Stat>): (r: seq<Roll>)
    requires AllGlitchValues(stats)
    ensures |r| == 3 * |stats|
  {
    if |stats| == 0 then [] else NumberRolls(stats[0].value) + StatsRolls(stats[1..])
  }

  lemma {:induction false} StatsRollsOfGlitchStats(labels: seq<string>, r: seq<Roll>)
    requires |r| == 3 * |labels|
    ensures StatsRolls(GlitchStats(labels, r)) == r
    decreases |labels|
  {
    if |labels| > 0 {
      var stats := GlitchStats(labels, r);
      assert stats[1..] == GlitchStats(labels[1..], r[3..]);
      NumberRollsOfGlitchNumber(r[..3]);
      StatsRollsOfGlitchStats(labels[1..], r[3..]);
      assert r == r[..3] + r[3..];
    }
  }

  lemma {:induction false} GlitchStatsOfStatsRolls(stats: seq<Stat>)
    requires AllGlitchValues(stats)
    ensures GlitchStats(seq(|stats|, i requires 0 <= i < |stats| => stats[i].name), StatsRolls(stats)) == stats
    decreases |stats|
  {
    if |stats| > 0 {
      var labels := seq(|stats|, i requires 0 <= i < |stats| => stats[i].name);
      var r := StatsRolls(stats);
      assert r[..3] == NumberRolls(stats[0].value);
      assert r[3..] == StatsRolls(stats[1..]);
      assert labels[1..] == seq(|stats[1..]|, i requires 0 <= i < |stats[1..]| => stats[1..][i].name);
      GlitchStatsOfStatsRolls(stats[1..]);
      assert stats == [stats[0]] + stats[1..];
    }
  }

  /** The 27 draws a placeholder was made from, in draw order. */
  function RollsOf(p: Pokemon): (rolls: seq<Roll>)
    requires IsMissingNo(p)
    ensures |rolls| == RollsPerCall
  {
    NumberRolls(p.id) + MeasureRolls(p.height, MetreUnit) + MeasureRolls(p.weight, KilogramUnit)
    + StatsRolls(p.stats)
  }

  lemma IdRollsOfCreate(rolls: seq<Roll>)
    requires |rolls| == RollsPerCall
    ensures NumberRolls(CreateMissingNo(rolls).id) == rolls[0..3]
  {
    NumberRollsOfGlitchNumber(rolls[0..3]);
  }

  lemma MeasureRollsOfCreate(rolls: seq<Roll>)
    requires |rolls| == RollsPerCall
    ensures MeasureRolls(CreateMissingNo(rolls).height, MetreUnit) == rolls[3..6]
    ensures MeasureRolls(CreateMissingNo(rolls).weight, KilogramUnit) == rolls[6..9]
  {
    MeasureRollsOfGlitchMeasure(rolls[3..6], MetreUnit);
    MeasureRollsOfGlitchMeasure(rolls[6..9], KilogramUnit);
  }

  lemma StatRollsOfCreate(rolls: seq<Roll>)
    requires |rolls| == RollsPerCall
    ensures StatsRolls(CreateMissingNo(rolls).stats) == rolls[9..]
  {
    StatsRollsOfGlitchStats(GlitchStatLabels, rolls[9..]);
  }

  lemma RollsOfParts(p: Pokemon, rolls: seq<Roll>)
    requires IsMissingNo(p) && |rolls| == RollsPerCall
    requires NumberRolls(p.id) == rolls[0..3]
    requires MeasureRolls(p.height, MetreUnit) == rolls[3..6]
    requires MeasureRolls(p.weight, KilogramUnit) == rolls[6..9]
    requires StatsRolls(p.stats) == rolls[9..]
    ensures RollsOf(p) == rolls
  {
    SplitJoin(rolls, NumberRolls(p.id), MeasureRolls(p.height, MetreUnit),
      MeasureRolls(p.weight, KilogramUnit), StatsRolls(p.stats));
  }

  lemma SplitJoin<T>(s: seq<T>, a: seq<T>, b: seq<T>, c: seq<T>, d: seq<T>)
    requires |s| == 27 && a == s[0..3] && b == s[3..6] && c == s[6..9] && d == s[9..]
    ensures a + b + c + d == s
  {
  }

  /** Distinct draws give distinct placeholders: the draws are recoverable. */
  lemma RollsOfCreate(rolls: seq<Roll>)
    requires |rolls| == RollsPerCall
    ensures RollsOf(CreateMissingNo(rolls)) == rolls
  {
    IdRollsOfCreate(rolls);
    MeasureRollsOfCreate(rolls);
    StatRollsOfCreate(rolls);
    RollsOfParts(CreateMissingNo(rolls), rolls);
  }

  /** Every text that meets the placeholder's promises is produced by some
      draws: the generator can show any glyph in any position. */
  lemma CreateRollsOf(p: Pokemon)
    requires IsMissingNo(p)
    ensures CreateMissingNo(RollsOf(p)) == p
  {
    var r := RollsOf(p);
    JoinSplit(NumberRolls(p.id), MeasureRolls(p.height, MetreUnit),
      MeasureRolls(p.weight, KilogramUnit), StatsRolls(p.stats));
    var q := CreateMissingNo(r);
    assert q.id == p.id;
    assert q.height == p.height && q.weight == p.weight;
    assert q.stats == p.stats by {
      GlitchLabelsAreTranslations();
      GlitchStatsOfStatsRolls(p.stats);
      assert seq(6, i requires 0 <= i < 6 => p.stats[i].name) == GlitchStatLabels;
    }
  }

  lemma JoinSplit<T>(a: seq<T>, b: seq<T>, c: seq<T>, d: seq<T>)
    requires |a| == 3 && |b| == 3 && |c| == 3
    ensures var s := a + b + c + d; s[0..3] == a && s[3..6] == b && s[6..9] == c && s[9..] == d
  {
  }

  /** A placeholder can never be mistaken for a formatted record: its id holds
      no digit. */
  lemma MissingNoIsNoRecord(rolls: seq<Roll>, raw: RawRecord)
    requires |rolls| == RollsPerCall
    ensures CreateMissingNo(rolls) != FormatRecord(raw)
  {
    var p := CreateMissingNo(rolls);
    assert !IsDigit(p.id[0]) by {
      assert p.id[0] in Glyphs;
    }
  }
}

=== FILE: search.dfy ===
/**
 * `searchPokemon` (app/index.tsx): the search screen's state and the steps
 * one search takes. The network call is replaced by its outcome, and the
 * placeholder's random draws are a parameter.
 */
module Search {
  import opened Wrappers
  import opened Text
  import opened Formatter
  import opened MissingNo

  /** The four `useState` slots of the screen. */
  datatype SearchState = SearchState(
    searchTerm: string,
    pokemon: Option<Pokemon>,
    loading: bool,
    error: string)

  /** The banner text as the file spells it: its "é" is mis-encoded as the
      two characters U+251C U+0439. */
  const PromptMessage := "Por favor ingresa un nombre de Pok\U{251C}\U{0439}mon"

  const ApiBase := "https://pokeapi.co/api/v2/pokemon/"

  /** The guard `!searchTerm.trim()`. */
  predicate IsBlankQuery(term: string) {
    Trim(term) == []
  }

  /** The path segment the request uses: lowercased, not trimmed. */
  function LookupKey(term: string): (key: string)
    ensures |key| == |term|
    ensures forall i :: 0 <= i < |term| && IsJsWhitespace(term[i]) ==> key[i] == term[i]
  {
    ToLower(term)
  }

  /** The request address: the API base followed by the term, each letter
      lower-cased and nothing removed. */
  function RequestUrl(term: string): (url: string)
    ensures |url| == |ApiBase| + |term| && url[..|ApiBase|] == ApiBase
    ensures forall i :: 0 <= i < |term| ==> url[|ApiBase| + i] == LowerChar(term[i])
  {
    ApiBase + LookupKey(term)
  }

  /** The synchronous part of a search: either the guard stops it, or the
      screen is cleared and a request goes out. */
  datatype Step = Rejected(state: SearchState) | Pending(state: SearchState, url: string)

  function Submit(s: SearchState): (step: Step)
    ensures step.Rejected? <==> IsBlank(s.searchTerm)
    ensures step.Rejected? ==>
              step.state == s.(error := PromptMessage)
    ensures step.Pending? ==>
              && step.state == s.(loading := true, error := [], pokemon := None)
              && step.url == ApiBase + LookupKey(s.searchTerm)
  {
    TrimEmptyIffBlank(s.searchTerm);
    if IsBlankQuery(s.searchTerm) then Rejected(s.(error := PromptMessage))
    else Pending(s.(loading := true, error := "", pokemon := None), RequestUrl(s.searchTerm))
  }

  /** The continuation after the request settles: the card shows the record,
      or a fresh placeholder; loading ends either way. */
  function Complete(s: SearchState, outcome: FetchOutcome, rolls: seq<Roll>): (r: SearchState)
    requires |rolls| == RollsPerCall
    ensures r.searchTerm == s.searchTerm && r.error == s.error && !r.loading
    ensures outcome.Fetched? ==> r.pokemon == Some(FormatRecord(outcome.record))
    ensures outcome.FetchFailed? ==> r.pokemon.Some? && IsMissingNo(r.pokemon.value)
  {
    match outcome
    case Fetched(raw) => s.(pokemon := Some(FormatRecord(raw)), loading := false)
    case FetchFailed => s.(pokemon := Some(CreateMissingNo(rolls)), loading := false)
  }

  /** One whole search with no other event in between: the final state and
      the request it issued, if any. */
  function SearchPokemon(s: SearchState, outcome: FetchOutcome, rolls: seq<Roll>)
    : (result: (SearchState, Option<string>))
    requires |rolls| == RollsPerCall
    ensures IsBlank(s.searchTerm) ==>
              && result.1 == None
              && result.0 == s.(error := PromptMessage)
    ensures !IsBlank(s.searchTerm) ==>
              && result.1 == Some(ApiBase + LookupKey(s.searchTerm))
              && result.0.searchTerm == s.searchTerm
              && result.0.error == []
              && !result.0.loading
              && result.0.pokemon.Some?
    ensures !IsBlank(s.searchTerm) && outcome.Fetched? ==>
              result.0.pokemon == Some(FormatRecord(outcome.record))
    ensures !IsBlank(s.searchTerm) && outcome.FetchFailed? ==>
              IsMissingNo(result.0.pokemon.value)
  {
    match Submit(s)
    case Rejected(r) => (r, None)
    case Pending(p, url) => (Complete(p, outcome, rolls), Some(url))
  }

  /** What the screen shows while a request is out: the spinner alone. */
  predicate Coherent(s: SearchState) {
    s.loading ==> s.pokemon.None? && s.error == []
  }

  /** From any state: starting a request clears the card and the banner; a
      search that issues a request ends with the spinner off, and a blank one
      leaves the spinner as it was. */
  lemma SearchKeepsCoherence(s: SearchState, outcome: FetchOutcome, rolls: seq<Roll>)
    requires |rolls| == RollsPerCall
    ensures Submit(s).Pending? ==> Coherent(Submit(s).state)
    ensures !IsBlank(s.searchTerm) || !s.loading ==>
              Coherent(SearchPokemon(s, outcome, rolls).0) && !SearchPokemon(s, outcome, rolls).0.loading
    ensures IsBlank(s.searchTerm) ==> SearchPokemon(s, outcome, rolls).0.loading == s.loading
  {
  }

  /** The screen's slots are not mutually exclusive: a blank search after a
      successful one shows the prompt banner next to the previous card. */
  lemma BlankSearchKeepsPreviousCard(s: SearchState, outcome: FetchOutcome, rolls: seq<Roll>)
    requires |rolls| == RollsPerCall
    requires s.pokemon.Some? && IsBlank(s.searchTerm)
    ensures SearchPokemon(s, outcome, rolls).0.pokemon == s.pokemon
    ensures SearchPokemon(s, outcome, rolls).0.error == PromptMessage
  {
  }

  /** The request path keeps surrounding white space: " Pikachu" asks for
      " pikachu". */
  lemma KeyIsNotTrimmed()
    ensures LookupKey(" Pikachu") == " pikachu"
  {
  }
}

=== FILE: text.dfy ===
/**
 * The few pieces of JavaScript string and number behaviour the app relies on:
 * `String.prototype.trim`, `Number.prototype.toString` on non-negative
 * integers, `padStart`, `toLowerCase` and `includes`.
 */
module Text {

  // ---------------------------------------------------------------------
  // White space and trim
  // ---------------------------------------------------------------------

  /** The code points `trim` strips: ECMAScript WhiteSpace (TAB, VT, FF,
      ZWNBSP and every Space_Separator) and LineTerminator (LF, CR, LS, PS). */
  predicate IsJsWhitespace(c: char) {
    || c == '\t' || c == '\U{000B}' || c == '\U{000C}' || c == '\U{FEFF}'
    || c == ' ' || c == '\U{00A0}' || c == '\U{1680}'
    || ('\U{2000}' <= c <= '\U{200A}')
    || c == '\U{202F}' || c == '\U{205F}' || c == '\U{3000}'
    || c == '\n' || c == '\r' || c == '\U{2028}' || c == '\U{2029}'
  }

  /** Every character of `s` is white space (the empty string included). */
  predicate IsBlank(s: string) {
    forall i :: 0 <= i < |s| ==> IsJsWhitespace(s[i])
  }

  /** Drops the leading white space: the result is the longest suffix of `s`
      that does not start with white space. */
  function TrimStart(s: string): (r: string)
    ensures |r| <= |s| && r == s[|s| - |r|..]
    ensures forall i :: 0 <= i < |s| - |r| ==> IsJsWhitespace(s[i])
    ensures r == [] || !IsJsWhitespace(r[0])
    decreases |s|
  {
    if |s| > 0 && IsJsWhitespace(s[0]) then TrimStart(s[1..]) else s
  }

  /** Drops the trailing white space: the result is the longest prefix of `s`
      that does not end with white space. */
  function TrimEnd(s: string): (r: string)
    ensures |r| <= |s| && r == s[..|r|]
    ensures forall i :: |r| <= i < |s| ==> IsJsWhitespace(s[i])
    ensures r == [] || !IsJsWhitespace(r[|r| - 1])
    decreases |s|
  {
    if |s| > 0 && IsJsWhitespace(s[|s| - 1]) then TrimEnd(s[..|s| - 1]) else s
  }

  /** `s.trim()`. */
  function Trim(s: string): string {
    TrimEnd(TrimStart(s))
  }

  /** `!s.trim()` holds exactly when `s` is empty or white space only. */
  lemma TrimEmptyIffBlank(s: string)
    ensures Trim(s) == [] <==> IsBlank(s)
  {
    var t := TrimStart(s);
    if Trim(s) == [] {
      assert t == [];
    } else {
      var r := Trim(s);
      assert r[0] == t[0];
      assert t[0] == s[|s| - |t|];
    }
  }

  // ---------------------------------------------------------------------
  // Decimal digits
  // ---------------------------------------------------------------------

  predicate IsDigit(c: char) {
    '0' <= c <= '9'
  }

  predicate AllDigits(s: string) {
    forall i :: 0 <= i < |s| ==> IsDigit(s[i])
  }

  function DigitChar(d: nat): (c: char)
    requires d < 10
    ensures IsDigit(c)
  {
    ('0' as int + d) as char
  }

  function DigitValue(c: char): (d: nat)
    requires IsDigit(c)
    ensures d < 10 && DigitChar(d) == c
  {
    c as int - '0' as int
  }

  /** The number a string of decimal digits denotes (most significant first);
      leading zeros are allowed and the empty string denotes 0. */
  function ParseDecimal(s: string): nat
    requires AllDigits(s)
  {
    if |s| == 0 then 0 else ParseDecimal(s[..|s| - 1]) * 10 + DigitValue(s[|s| - 1])
  }

  /** Number of decimal digits of `n` written without leading zeros. */
  function DigitCount(n: nat): (k: nat)
    ensures k >= 1
  {
    if n < 10 then 1 else 1 + DigitCount(n / 10)
  }

  /** `n.toString()` for a non-negative integer: canonical decimal text. */
  function NatToString(n: nat): (r: string)
    ensures |r| == DigitCount(n)
    ensures AllDigits(r)
    ensures |r| == 1 || r[0] != '0'
  {
    if n < 10 then [DigitChar(n)] else NatToString(n / 10) + [DigitChar(n % 10)]
  }

  /** Reading the decimal text back gives the number. */
  lemma {:induction false} NatToStringRoundTrip(n: nat)
    ensures ParseDecimal(NatToString(n)) == n
  {
    if n >= 10 {
      var s := NatToString(n);
      assert s[..|s| - 1] == NatToString(n / 10);
      NatToStringRoundTrip(n / 10);
    }
  }

  function Repeat(c: char, k: nat): (r: string)
    ensures |r| == k && forall i :: 0 <= i < k ==> r[i] == c
  {
    if k == 0 then [] else [c] + Repeat(c, k - 1)
  }

  function Max(a: int, b: int): int {
    if a >= b then a else b
  }

  /** `s.padStart(width, c)` for a one-character pad string. */
  function PadStart(s: string, width: nat, c: char): (r: string)
    ensures |r| == Max(width, |s|)
    ensures r[|r| - |s|..] == s
    ensures forall i :: 0 <= i < |r| - |s| ==> r[i] == c
  {
    if |s| >= width then s else Repeat(c, width - |s|) + s
  }

  /** Leading zeros do not change the number a digit string denotes. */
  lemma {:induction false} LeadingZerosIgnored(k: nat, s: string)
    requires AllDigits(s)
    ensures AllDigits(Repeat('0', k) + s)
    ensures ParseDecimal(Repeat('0', k) + s) == ParseDecimal(s)
    decreases |s|, k
  {
    var z := Repeat('0', k);
    if |s| == 0 {
      assert z + s == z;
      if k > 0 {
        assert z[..k - 1] == Repeat('0', k - 1);
        LeadingZerosIgnored(k - 1, s);
        assert Repeat('0', k - 1) + s == Repeat('0', k - 1);
      }
    } else {
      var p := s[..|s| - 1];
      assert (z + s)[..|z + s| - 1] == z + p;
      LeadingZerosIgnored(k, p);
    }
  }

  // ---------------------------------------------------------------------
  // Case
  // ---------------------------------------------------------------------

  predicate IsAsciiUpper(c: char) {
    'A' <= c <= 'Z'
  }

  function LowerChar(c: char): char {
    if IsAsciiUpper(c) then (c as int + 32) as char else c
  }

  /** `s.toLowerCase()`, for the ASCII letters. */
  function ToLower(s: string): (r: string)
    ensures |r| == |s|
    ensures forall i :: 0 <= i < |r| ==> !IsAsciiUpper(r[i])
    ensures forall i :: 0 <= i < |s| && !IsAsciiUpper(s[i]) ==> r[i] == s[i]
    ensures forall i :: 0 <= i < |s| && IsAsciiUpper(s[i]) ==> r[i] as int == s[i] as int + 32
  {
    seq(|s|, i requires 0 <= i < |s| => LowerChar(s[i]))
  }

  // ---------------------------------------------------------------------
  // Substring search
  // ---------------------------------------------------------------------

  predicate StartsWith(s: string, p: string) {
    |p| <= |s| && s[..|p|] == p
  }

  /** `t` sits in `s` starting at index `i`. */
  predicate OccursAt(s: string, t: string, i: int) {
    0 <= i <= |s| - |t| && s[i..i + |t|] == t
  }

  /** `s.includes(t)`, as a scan from the left. */
  predicate Contains(s: string, t: string)
    decreases |s|
  {
    StartsWith(s, t) || (|s| > 0 && Contains(s[1..], t))
  }

  /** The scan agrees with the definition "t occurs somewhere in s". */
  lemma {:induction false} ContainsIffOccurs(s: string, t: string)
    ensures Contains(s, t) <==> exists i :: OccursAt(s, t, i)
    decreases |s|
  {
    if StartsWith(s, t) {
      assert OccursAt(s, t, 0);
    } else if |s| > 0 {
      ContainsIffOccurs(s[1..], t);
      if Contains(s[1..], t) {
        var i :| OccursAt(s[1..], t, i);
        assert s[i + 1..i + 1 + |t|] == s[1..][i..i + |t|];
        assert OccursAt(s, t, i + 1);
      } else {
        forall i | OccursAt(s, t, i)
          ensures false
        {
          assert i != 0;
          assert s[1..][i - 1..i - 1 + |t|] == s[i..i + |t|];
          assert OccursAt(s[1..], t, i - 1);
        }
      }
    }
  }

  /** A witness position proves containment. */
  lemma ContainsAt(s: string, t: string, i: int)
    requires OccursAt(s, t, i)
    ensures Contains(s, t)
  {
    ContainsIffOccurs(s, t);
  }

  /** A non-empty string can only be found where its first character is. */
  lemma ContainsFirstChar(s: string, t: string)
    requires Contains(s, t) && |t| > 0
    ensures t[0] in s
  {
    ContainsIffOccurs(s, t);
    var i :| OccursAt(s, t, i);
    assert s[i] == s[i..i + |t|][0];
  }

  /** A string whose first character is absent is not found. */
  lemma AbsentFirstChar(s: string, t: string)
    requires |t| > 0 && t[0] !in s
    ensures !Contains(s, t)
  {
    if Contains(s, t) {
      ContainsFirstChar(s, t);
    }
  }
}

=== FILE: wrappers.dfy ===
/** The absent-or-present value used for JavaScript's `null` and for missing results. */
module Wrappers {

  datatype Option<+T> = None | Some(value: T)
}
